=== FILE: README.md ===
# SLIP byte-stuffing engine (slipc) in Dafny

This project models the core of `slipc`, a small C implementation of SLIP framing
(RFC 1055). It covers three parts:

- **Encoder** (`src/slipc.c`): byte stuffing of single bytes, whole-buffer packet encoding,
  and the pull-based transfer that encodes the chunks a reader callback delivers.
- **Decoder** (`src/slipc.c`): a one-byte state machine (`prev`) fed one wire byte at a
  time, writing unescaped bytes to a writer callback.
- **Array adapters** (`src/slipc_io.c`, `include/slipc_io.h`): an in-memory reader and
  writer, each a cursor plus a remaining length, with min-length semantics.

Modules:

- `Wire`: the wire constants `END`, `ESC`, `ESC_END` and `ESC_ESC` (0xC0, 0xDB, 0xDC,
  0xDD), and the writer, reader and decode result codes of `include/slipc.h`.
- `Stream`: the writer and reader callbacks of `include/slipc.h`, modelled as values.
  - A `Writer` holds a script of accept/refuse replies for its successive one-byte calls,
    the number of calls made so far, and the bytes it accepted. A refused call records
    nothing, and calls beyond the script are refused.
  - A `Reader` is the list of (status, chunk) replies it will give. Once the script runs
    out, it reports EOF with no bytes.
  - `WriteAll` is the reference behaviour "one call per byte, stop at the first refusal".
    Every encoder operation is specified against it.
- `Encoding`: the stuffing table, packet frames, and the three encoder operations.
- `Decoding`: the decoder state machine, feeding a wire sequence byte by byte, and the
  round trip.
- `ArrayIo`: the `slipc_io.h` result codes, and the array reader and writer with their
  create functions.

Where slipc's code departs from textbook SLIP (RFC 1055), the model follows the code:

- **Escaped start marker.** With `send_start` set, the start marker is passed through
  `slipc_encode_byte` (src/slipc.c:53 and :87). The wire therefore begins with `ESC, ESC_END`
  rather than a bare `END`, and a decoder writes it out as a data byte 0xC0
  (`Decoding.StartMarkerDecodesAsData`).
- **A doubled `ESC` re-arms the escape.** RFC 1055's receiver stores the second `ESC` as
  data; slipc's decoder drops the first one and escape-decodes the byte after the second
  (`Decoding.DoubleEscapeDropsFirst`).
- **`ESC` then `END` ends the packet.** RFC 1055's receiver stores the `END` as data; slipc's
  decoder reports end of packet, writes nothing, and starts afresh
  (`Decoding.EscapedEndEndsPacket`).

Other behaviour worth knowing:

- **Undefined escapes pass through.** An `ESC` followed by a byte other than `END`, `ESC`,
  `ESC_END` or `ESC_ESC` writes that byte unchanged and reports success
  (`Decoding.MalformedEscapePassesThrough`), as RFC 1055's sample receiver also does.
- **Byte-level decoding only.** slipc offers a per-byte decode step and no receive loop of
  its own; `Decoding.DecodeStream` is a caller feeding bytes to it in order.
- **EOF can carry bytes.** The array reader reports EOF on the very call that delivers its
  last bytes. The transfer encoder ignores any bytes that come with an EOF reply.

## Model

| member | source | states |
|---|---|---|
| Wire.ConstantsDistinct | include/slipc.h:15-20 | The four wire constants are pairwise distinct, and `ESC_END`/`ESC_ESC` are nonzero and not reserved, which the encoder's `stuffbyte != 0` test relies on |
| Stream.Write | include/slipc.h:22-34 | One writer call consumes one scripted reply. It reports OK exactly when accepted, appends the byte only then, and counts the call either way |
| Stream.Refusal | include/slipc.h:22-34 | The index of the first refused call among the next n is at most n; every call before it is accepted, and the call at it (if below n) is refused |
| Stream.WriteAllTrace | src/slipc.c:92-100 | By induction over the bytes: the writer's script is untouched, the write succeeds iff the first refusal lies past the end, the writer holds the bytes before the first refusal, and one call is made per byte up to and including the refused one |
| Stream.WriteAllOutcome | src/slipc.c:92-100 | Writing a byte sequence call by call succeeds exactly when all its calls are accepted. Otherwise the writer holds exactly the bytes before the first refusal, and no call follows the refused one |
| Stream.WriteAllAppend | src/slipc.c:92-100 | Writing `a + b` writes `a` and then, only if that succeeded, `b` from where `a` left the writer |
| Stream.Read | include/slipc.h:36-48 | A reader call returns the next scripted reply and drops it from the script; an exhausted script reports EOF with no bytes and stays exhausted |
| Encoding.Stuff | src/slipc.c:22-31 | The stuffing table: END becomes exactly `[ESC, ESC_END]`, ESC exactly `[ESC, ESC_ESC]`, and any other byte, ESC_END and ESC_ESC included, stays one unchanged byte; no entry contains END |
| Encoding.StuffAllShape | src/slipc.c:92-96 | The stuffed payload is between one and two times the payload's length and never contains END |
| Encoding.StuffAllAppend | src/slipc.c:92-96 | Stuffing distributes over concatenation |
| Encoding.Lead | src/slipc.c:86-90 | The start marker on the wire is `ESC, ESC_END` when `send_start` is set, and nothing otherwise |
| Encoding.FrameDelimitedOnlyAtEnd | src/slipc.c:81-102 | A packet frame ends in END and contains no other END, with or without a start marker |
| Encoding.StartMarkerIsEscapedEnd | src/slipc.c:86-90 | A start-marked frame of `s` is the plain frame of `[END] + s` |
| Encoding.FramingExamples | src/slipc.c:81-102 | `[1,2,3]` frames as `[1,2,3,END]`, and with a start marker as `[ESC,ESC_END,1,2,3,END]` |
| Encoding.EncodeByte | src/slipc.c:18-45 | Encoding one byte is writing its table entry call by call. END gives exactly `[ESC, ESC_END]` and ESC gives `[ESC, ESC_ESC]`, each succeeding iff both calls are accepted; any other byte is written once and succeeds iff that call is accepted. If the first call is refused, no second call is made and nothing is recorded |
| Encoding.EncodeBytes | src/slipc.c:92-96 | The per-byte loop ends exactly as writing the stuffed buffer call by call, stopping at the first refusal |
| Encoding.SendStart | src/slipc.c:86-90 | Sending the start marker is writing its wire form call by call (through the stuffing routine) when `send_start` is set, and does nothing and succeeds otherwise |
| Encoding.EncodePacket | src/slipc.c:81-102 | Packet encoding succeeds iff the writer accepts every call of the frame, and then the writer received exactly the frame. On failure it received the frame up to the first refused call (so no trailing END), and no call was made after that one |
| Encoding.EncoderInit | src/slipc.c:7-16 | The encoder holds the given writer, reader and start-marker flag |
| Encoding.TransferWireClean | src/slipc.c:58-78 | When the reader's OK run ends in EOF, the transfer's wire image is the packet frame of the concatenated OK chunks |
| Encoding.Pump | src/slipc.c:58-78 | The read loop writes the stuffed chunks of the leading OK replies in order, plus END only after EOF. It succeeds iff every write is accepted and the run ended in EOF (a reader error fails without END), and on success it consumed exactly the OK run and the EOF reply |
| Encoding.EncodeTransfer | src/slipc.c:47-79 | A transfer leaves the writer exactly as writing its start marker and read-loop bytes call by call. With a clean EOF end this is exactly `EncodePacket` of the concatenated OK chunks; a reader error always fails. The start-marker flag is unchanged |
| Decoding.DecoderInit | src/slipc.c:104 | A fresh decoder has `prev == END`, so it is not inside an escape |
| Decoding.DecodeByte | src/slipc.c:106-135 | The decoder's transition table. It returns EOF iff the byte is END, which resets to the initial state. END and ESC write nothing, record themselves in `prev` and never fail. Any other byte makes one write call and fails iff that call is refused. After ESC, ESC_END writes END, ESC_ESC writes ESC and other bytes pass through; otherwise the byte is written unchanged and `prev` is untouched |
| Decoding.OnlyEscapeMatters | src/slipc.c:118-128 | Two decoders that agree on whether `prev` is ESC produce the same result and writer, and again agree on being escaped |
| Decoding.DecodeStreamAppend | src/slipc.c:106-135 | Feeding `a + b` is feeding `a`, then `b` from the state `a` left |
| Decoding.DecodeStuffed | src/slipc.c:118-134 | Outside an escape, a stuffed payload decodes with one accepted write per payload byte, writes exactly the payload, reports Ok for every byte, and leaves the decoder outside an escape |
| Decoding.RoundTrip | src/slipc.c:104-134 | A fresh decoder fed the frame of `s` without a start marker writes exactly `s` with one call per byte of `s`. It reports Ok for every byte but the last and EOF on the final END, and ends in its initial state |
| Decoding.StartMarkerDecodesAsData | src/slipc.c:86-90 | A fresh decoder fed a start-marked frame of `s` writes `[END] + s` |
| Decoding.DoubleEscapeDropsFirst | src/slipc.c:113-115 | `ESC ESC` followed by anything decodes like a single `ESC` followed by the same bytes, with one extra Ok |
| Decoding.EscapedEndEndsPacket | src/slipc.c:109-115 | From any state, `ESC` followed by `END` writes nothing, gives Ok then EOF, and leaves the decoder as freshly initialised |
| Decoding.MalformedEscapePassesThrough | src/slipc.c:109-134 | From any state, `ESC` followed by a byte other than `END`, `ESC`, `ESC_END` or `ESC_ESC` writes that byte unchanged, both results are Ok, and that byte becomes the history |
| ArrayIo.ArrayRead | src/slipc_io.c:11-26 | A read delivers min(requested, remaining) bytes taken from the cursor; the delivered bytes followed by what is still unread are what was unread before. The cursor advances and the remaining count drops by the amount delivered. The result is EOF iff nothing remains afterwards (even if bytes were delivered), otherwise MORE, and never ERROR |
| ArrayIo.ReaderCreate | src/slipc_io.c:28-40 | A new array reader sits at the start of the buffer with `len` bytes remaining, so that every read through it is an array read of its state, and has exactly the first `len` bytes unread |
| ArrayIo.ReadsPartition | src/slipc_io.c:11-26 | For any sequence of requested sizes, the delivered chunks followed by what is still unread are exactly the bytes unread at the start: each delivered once, in order |
| ArrayIo.Drain | include/slipc_io.h:88-103 | Reading with any positive request size until EOF collects exactly the reader's unread bytes and leaves nothing remaining |
| ArrayIo.ArrayWrite | src/slipc_io.c:45-61 | A write stores min(requested, room) bytes and reports that count; it advances the cursor and cuts the room by the same amount, and the array keeps its size. The result is EOF iff no room is left afterwards (including an exactly filling write), otherwise OK, and never ERROR |
| ArrayIo.ArrayWriteStores | src/slipc_io.c:50-54 | After a write, the array is the old one with the stored prefix of the data copied in at the old cursor: the bytes from the old to the new cursor are that prefix, every byte outside that stretch is as before, and bytes beyond the room are dropped |
| ArrayIo.WriterCreate | src/slipc_io.c:63-76 | A new array writer sits at the start of the buffer with room for `len` bytes, so that every write through it is an array write of its state |
| ArrayIo.WritesAdvance | src/slipc_io.c:45-61 | Over successive writes, the cursor advances by min(total bytes offered, initial room) |
| ArrayIo.WritesKeep | src/slipc_io.c:45-61 | Successive writes never touch the array before the first cursor or after the last one |
| ArrayIo.WritesFill | src/slipc_io.c:45-61 | Successive writes fill the array in order: the stretch between the first and last cursor holds the longest prefix of all bytes offered that fits |
| ArrayIo.WriteThenRead | src/slipc_io.c:11-61 | An array reader made over the filled part of an array written through a fresh array writer reads back exactly the longest prefix of the bytes written that fits |

## Left out

- Callback plumbing: the `void *` contexts, the function pointers and the `assert`s on null
  pointers are not modelled. Callbacks are values: a scripted writer and reader in
  `Stream`, and a one-constructor dispatch tag in `ArrayIo`.
- The chunk size `SLIPC_MAX_PACKET_SIZE` (the transfer's 256-byte stack buffer) is not
  modelled: reader replies carry chunks of any length. The transfer's behaviour does not
  depend on chunk sizes.
- Non-termination of the transfer: `Encoding.Pump` and `Encoding.EncodeTransfer` terminate
  in the model only because the reader script is finite and reads as EOF once used up. The C
  loop (src/slipc.c:58-78) runs forever on a reader that never reports EOF or ERROR, and
  also re-reads forever on a status outside the reader enum (its `switch` has no
  `default`); reader statuses are the three enum values only.
- Integer width: `size_t` arithmetic in the array adapters never wraps, because the count
  is a minimum of the remaining length. Unbounded naturals are used throughout.
- The array reader and writer operate on value copies of the buffer; pointer aliasing
  between caller and adapter is not modelled. `ArrayIo.ReaderCreate` and
  `ArrayIo.WriterCreate` require `len` to fit in the buffer, which the C leaves to the caller.
- Encoding.Pump: on a failed transfer the model does not state how far the reader was
  consumed. The C leaves the reader wherever the failing call found it.
- Encoding.EncodeTransfer: on failure, the reader state is not stated, for the same reason.
- The test files (`test/test_slipc.cc`, `test/test_tromp.cc`, `test/test_d_slipc.cc`) are
  test harnesses and mock-framework smoke tests; they are not part of this model.
- No wiring between the `slipc_io.h` adapters and the `slipc.h` encoder/decoder is modelled.
  The two APIs have different reader/writer types (both headers define a `struct
  slipc_writer`), and different writer result codes: value 1 is ERROR in `slipc.h` and EOF
  in `slipc_io.h`; the reader codes line up. `src/slipc.c` does not use `slipc_io.h`.

=== FILE: array_io.dfy ===
/** The separate I/O interface of slipc_io.h and its in-memory adapters
    (src/slipc_io.c): a reader and a writer over a fixed byte array, each
    kept as a cursor into the array plus the number of bytes left. */
module ArrayIo {
  import opened Wire

  /** Result codes of a writer callback. */
  datatype IoWriterResult = IoWriterOk | IoWriterEof | IoWriterError

  /** Result codes of a reader callback. */
  datatype IoReaderResult = IoReaderEof | IoReaderMore | IoReaderError

  function Min(a: nat, b: nat): (m: nat)
  {
    if a < b then a else b
  }

  /** Array reader state: the backing array, the cursor, and how many bytes
      remain to be read from the cursor on. */
  datatype ArrayReader = ArrayReader(buf: seq<byte>, cursor: nat, len: nat)

  /** The remaining bytes lie inside the backing array. */
  predicate ValidReader(r: ArrayReader)
  {
    r.cursor + r.len <= |r.buf|
  }

  /** The bytes a reader has yet to deliver. */
  function Unread(r: ArrayReader): (u: seq<byte>)
    requires ValidReader(r)
  {
    r.buf[r.cursor .. r.cursor + r.len]
  }

  /** Result of one read call: status, the bytes copied out (their number
      is what the callback reports through `len`), and the new state. */
  datatype ReadOutcome = ReadOutcome(result: IoReaderResult, chunk: seq<byte>, reader: ArrayReader)

  /** `slipc_array_reader_read`: deliver as many of the requested bytes as
      remain, advance past them, and report EOF exactly when nothing is
      left afterwards — even if this call delivered bytes. */
  function ArrayRead(r: ArrayReader, requested: nat): (o: ReadOutcome)
    requires ValidReader(r)
    ensures ValidReader(o.reader) && o.reader.buf == r.buf
    ensures |o.chunk| <= requested && |o.chunk| <= r.len
    ensures |o.chunk| == requested || |o.chunk| == r.len
    ensures o.chunk == Unread(r)[..|o.chunk|]
    ensures Unread(r) == o.chunk + Unread(o.reader)
    ensures o.reader.cursor == r.cursor + |o.chunk| && o.reader.len == r.len - |o.chunk|
    ensures o.result == IoReaderEof <==> o.reader.len == 0
    ensures o.result != IoReaderError
  {
    var n := Min(r.len, requested);
    var next := r.(cursor := r.cursor + n, len := r.len - n);
    assert Unread(r) == r.buf[r.cursor .. r.cursor + n] + Unread(next);
    ReadOutcome(if next.len == 0 then IoReaderEof else IoReaderMore, r.buf[r.cursor .. r.cursor + n], next)
  }

  /** Which read routine a reader dispatches to; the array routine is the
      only one defined here. */
  datatype ReadCallback = ArrayReaderRead

  /** A reader of slipc_io.h: its context and its read routine. */
  datatype IoReader = IoReader(ctx: ArrayReader, read: ReadCallback)

  /** Call a reader's routine. */
  function ReadVia(r: IoReader, requested: nat): (o: ReadOutcome)
    requires ValidReader(r.ctx)
  {
    match r.read
    case ArrayReaderRead => ArrayRead(r.ctx, requested)
  }

  /** `slipc_io_array_reader_create`: a reader at the start of the first
      `len` bytes of `buf`, dispatching to the array read routine. */
  function ReaderCreate(buf: seq<byte>, len: nat): (r: IoReader)
    requires len <= |buf|
    ensures ValidReader(r.ctx) && r.read == ArrayReaderRead
    ensures r.ctx.buf == buf && r.ctx.cursor == 0 && r.ctx.len == len
    ensures Unread(r.ctx) == buf[..len]
    ensures forall n :: ReadVia(r, n) == ArrayRead(r.ctx, n)
  {
    IoReader(ArrayReader(buf, 0, len), ArrayReaderRead)
  }

  /** Concatenation of a list of chunks. */
  function Flatten(chunks: seq<seq<byte>>): (all: seq<byte>)
  {
    if chunks == [] then [] else chunks[0] + Flatten(chunks[1..])
  }

  /** Several reads in a row, with the given requested sizes. */
  datatype Reads = Reads(chunks: seq<seq<byte>>, reader: ArrayReader)

  function ReadSeq(r: ArrayReader, sizes: seq<nat>): (o: Reads)
    requires ValidReader(r)
    ensures ValidReader(o.reader) && o.reader.buf == r.buf
    ensures |o.chunks| == |sizes|
    decreases |sizes|
  {
    if sizes == [] then Reads([], r)
    else
      var first := ArrayRead(r, sizes[0]);
      var rest := ReadSeq(first.reader, sizes[1..]);
      Reads([first.chunk] + rest.chunks, rest.reader)
  }

  /** Reads partition the buffer: whatever sizes are requested, the chunks
      delivered, followed by what is still unread, are exactly the bytes
      that were unread at the start — each delivered once, in order. */
  lemma {:induction false} ReadsPartition(r: ArrayReader, sizes: seq<nat>)
    requires ValidReader(r)
    ensures var o := ReadSeq(r, sizes);
      Flatten(o.chunks) + Unread(o.reader) == Unread(r) &&
      o.reader.cursor == r.cursor + |Flatten(o.chunks)|
    decreases |sizes|
  {
    if sizes != [] {
      var first := ArrayRead(r, sizes[0]);
      ReadsPartition(first.reader, sizes[1..]);
      var rest := ReadSeq(first.reader, sizes[1..]);
      assert ([first.chunk] + rest.chunks)[1..] == rest.chunks;
      assert Flatten([first.chunk] + rest.chunks) == first.chunk + Flatten(rest.chunks);
    }
  }

  /** Read with a fixed request size until the reader reports EOF.  The
      bytes collected are exactly the buffer the reader was made over. */
  method Drain(r: ArrayReader, chunkSize: nat) returns (data: seq<byte>, last: ArrayReader)
    requires ValidReader(r) && chunkSize > 0
    ensures data == Unread(r)
    ensures ValidReader(last) && last.len == 0 && last.cursor == r.cursor + r.len
  {
    data, last := [], r;
    while true
      invariant ValidReader(last) && last.buf == r.buf
      invariant data + Unread(last) == Unread(r)
      invariant last.cursor + last.len == r.cursor + r.len
      decreases last.len
    {
      var o := ArrayRead(last, chunkSize);
      Assoc(data, o.chunk, Unread(o.reader));
      data, last := data + o.chunk, o.reader;
      if o.result == IoReaderEof {
        assert Unread(last) == [];
        return;
      }
    }
  }

  /** Array writer state: the backing array, the cursor, and how much room
      is left from the cursor on. */
  datatype ArrayWriter = ArrayWriter(buf: seq<byte>, cursor: nat, len: nat)

  /** The free room lies inside the backing array. */
  predicate ValidWriter(w: ArrayWriter)
  {
    w.cursor + w.len <= |w.buf|
  }

  /** Result of one write call: status, how many bytes were stored (what
      the callback reports through `len`), and the new state. */
  datatype WriteOutcome = WriteOutcome(result: IoWriterResult, count: nat, writer: ArrayWriter)

  /** `after` is `before` with `part` copied over it at offset `at`. */
  predicate Spliced(before: seq<byte>, at: nat, part: seq<byte>, after: seq<byte>)
  {
    && at + |part| <= |before|
    && after == before[..at] + part + before[at + |part|..]
  }

  /** `slipc_array_writer_write`: store as many bytes as there is room for
      at the cursor, advance past them, drop the rest, and report EOF
      exactly when no room is left afterwards — including a write that
      fills the array exactly. */
  function ArrayWrite(w: ArrayWriter, data: seq<byte>): (o: WriteOutcome)
    requires ValidWriter(w)
    ensures ValidWriter(o.writer) && |o.writer.buf| == |w.buf|
    ensures o.count <= |data| && o.count <= w.len
    ensures o.count == |data| || o.count == w.len
    ensures o.writer.cursor == w.cursor + o.count && o.writer.len == w.len - o.count
    ensures o.result == IoWriterEof <==> o.writer.len == 0
    ensures o.result != IoWriterError
  {
    var n := Min(w.len, |data|);
    var stored := w.buf[..w.cursor] + data[..n] + w.buf[w.cursor + n..];
    var next := ArrayWriter(stored, w.cursor + n, w.len - n);
    WriteOutcome(if next.len == 0 then IoWriterEof else IoWriterOk, n, next)
  }

  /** A write puts the stored bytes at the cursor and leaves every other
      byte of the array as it was. */
  lemma ArrayWriteStores(w: ArrayWriter, data: seq<byte>)
    requires ValidWriter(w)
    ensures var o := ArrayWrite(w, data);
      && Spliced(w.buf, w.cursor, data[..o.count], o.writer.buf)
      && o.writer.buf[w.cursor .. o.writer.cursor] == data[..o.count]
      && (forall i :: 0 <= i < w.cursor ==> o.writer.buf[i] == w.buf[i])
      && (forall i :: o.writer.cursor <= i < |w.buf| ==> o.writer.buf[i] == w.buf[i])
  {
    var o := ArrayWrite(w, data);
    var head := w.buf[..w.cursor] + data[..o.count];
    assert |data[..o.count]| == o.count;
    assert o.writer.buf == head + w.buf[o.writer.cursor..];
    assert o.writer.buf[w.cursor .. o.writer.cursor] == head[w.cursor..];
  }

  /** Which write routine a writer dispatches to; the array routine is the
      only one defined here. */
  datatype WriteCallback = ArrayWriterWrite

  /** A writer of slipc_io.h: its context and its write routine. */
  datatype IoWriter = IoWriter(ctx: ArrayWriter, write: WriteCallback)

  /** Call a writer's routine. */
  function WriteVia(w: IoWriter, data: seq<byte>): (o: WriteOutcome)
    requires ValidWriter(w.ctx)
  {
    match w.write
    case ArrayWriterWrite => ArrayWrite(w.ctx, data)
  }

  /** `slipc_io_array_writer_create`: a writer at the start of `buf` with
      room for `len` bytes, dispatching to the array write routine. */
  function WriterCreate(buf: seq<byte>, len: nat): (w: IoWriter)
    requires len <= |buf|
    ensures ValidWriter(w.ctx) && w.write == ArrayWriterWrite
    ensures w.ctx.buf == buf && w.ctx.cursor == 0 && w.ctx.len == len
    ensures forall data :: WriteVia(w, data) == ArrayWrite(w.ctx, data)
  {
    IoWriter(ArrayWriter(buf, 0, len), ArrayWriterWrite)
  }

  /** Several writes in a row. */
  function WriteSeq(w: ArrayWriter, chunks: seq<seq<byte>>): (o: ArrayWriter)
    requires ValidWriter(w)
    ensures ValidWriter(o) && |o.buf| == |w.buf|
    decreases |chunks|
  {
    if chunks == [] then w
    else WriteSeq(ArrayWrite(w, chunks[0]).writer, chunks[1..])
  }

  /** Successive writes store the longest prefix of everything written
      that fits, and the cursor moves past exactly that many bytes. */
  lemma {:induction false} WritesAdvance(w: ArrayWriter, chunks: seq<seq<byte>>)
    requires ValidWriter(w)
    ensures var o := WriteSeq(w, chunks);
      var n := Min(|Flatten(chunks)|, w.len);
      o.cursor == w.cursor + n && o.len == w.len - n
    decreases |chunks|
  {
    if chunks != [] {
      var first := ArrayWrite(w, chunks[0]);
      WritesAdvance(first.writer, chunks[1..]);
      if first.count < |chunks[0]| {
        assert first.writer.len == 0;
      }
    }
  }

  /** Successive writes leave the array alone outside the stretch between
      the first and the last cursor. */
  lemma {:induction false} WritesKeep(w: ArrayWriter, chunks: seq<seq<byte>>)
    requires ValidWriter(w)
    ensures var o := WriteSeq(w, chunks);
      && o.cursor >= w.cursor
      && (forall i :: 0 <= i < w.cursor ==> o.buf[i] == w.buf[i])
      && (forall i :: o.cursor <= i < |w.buf| ==> o.buf[i] == w.buf[i])
    decreases |chunks|
  {
    if chunks != [] {
      ArrayWriteStores(w, chunks[0]);
      WritesKeep(ArrayWrite(w, chunks[0]).writer, chunks[1..]);
    }
  }

  /** Successive writes fill the array in order: the bytes between the
      first and the last cursor are the longest prefix of everything
      written that fits; bytes past the room are dropped. */
  lemma {:induction false} WritesFill(w: ArrayWriter, chunks: seq<seq<byte>>)
    requires ValidWriter(w)
    ensures var o := WriteSeq(w, chunks);
      var n := Min(|Flatten(chunks)|, w.len);
      o.cursor == w.cursor + n && o.buf[w.cursor .. o.cursor] == Flatten(chunks)[..n]
    decreases |chunks|
  {
    WritesAdvance(w, chunks);
    if chunks != [] {
      var first := ArrayWrite(w, chunks[0]);
      var w1 := first.writer;
      ArrayWriteStores(w, chunks[0]);
      WritesFill(w1, chunks[1..]);
      WritesKeep(w1, chunks[1..]);
      var o := WriteSeq(w, chunks);
      var m := Min(|Flatten(chunks[1..])|, w1.len);
      SliceAgree(o.buf, w1.buf, w.cursor, w1.cursor);
      SliceSplit(o.buf, w.cursor, w1.cursor, o.cursor);
      PrefixOfConcat(chunks[0], Flatten(chunks[1..]), first.count, m);
    }
  }

  /** The adapters fit together: whatever is written through a fresh array
      writer can be read back, in order, by an array reader over the filled
      part of the same array — up to the writer's capacity. */
  lemma WriteThenRead(buf: seq<byte>, len: nat, chunks: seq<seq<byte>>)
    requires len <= |buf|
    ensures var o := WriteSeq(WriterCreate(buf, len).ctx, chunks);
      o.cursor <= |o.buf| &&
      Unread(ReaderCreate(o.buf, o.cursor).ctx) == Flatten(chunks)[..Min(|Flatten(chunks)|, len)]
  {
    WritesFill(WriterCreate(buf, len).ctx, chunks);
  }

  /** Two arrays that agree before `hi` agree on the slice `lo..hi`. */
  lemma SliceAgree(a: seq<byte>, b: seq<byte>, lo: nat, hi: nat)
    requires lo <= hi <= |a| && hi <= |b|
    requires forall i :: 0 <= i < lo ==> a[i] == b[i]
    requires forall i :: lo <= i < hi ==> a[i] == b[i]
    ensures a[lo .. hi] == b[lo .. hi]
  {
  }

  /** A slice is the concatenation of its two halves. */
  lemma SliceSplit(a: seq<byte>, lo: nat, mid: nat, hi: nat)
    requires lo <= mid <= hi <= |a|
    ensures a[lo .. hi] == a[lo .. mid] + a[mid .. hi]
  {
  }

  /** A prefix of `x + y` that cuts `x` short takes nothing from `y`. */
  lemma PrefixOfConcat(x: seq<byte>, y: seq<byte>, c: nat, m: nat)
    requires c <= |x| && m <= |y| && (c < |x| ==> m == 0)
    ensures (x + y)[..c + m] == x[..c] + y[..m]
  {
  }
}

=== FILE: decoding.dfy ===
/** The SLIP decoder of src/slipc.c: a one-byte state machine fed one wire
    byte at a time, writing unescaped payload bytes to a writer.  An ESC
    followed by a byte other than END, ESC, ESC_END or ESC_ESC passes that
    byte through without any signal, and there is no receive loop: `DecodeStream` below is the
    caller feeding bytes in order. */
module Decoding {
  import opened Wire
  import opened Stream
  import opened Encoding

  /** Decoder state of slipc.h: the one byte of history. */
  datatype Decoder = Decoder(prev: byte)

  /** The previous byte armed an escape. */
  predicate Escaped(d: Decoder)
  {
    d.prev == ESC
  }

  /** `slip_decoder_init`: a fresh decoder behaves as if it had just seen
      a packet delimiter. */
  function DecoderInit(): (d: Decoder)
    ensures !Escaped(d)
    ensures d.prev == END
  {
    Decoder(END)
  }

  /** Result of one decoding step. */
  datatype Step = Step(result: DecodeResult, decoder: Decoder, writer: Writer)

  /** `slipc_decode_byte`.  END and ESC are consumed without a write; any
      other byte is written once — translated when it follows an ESC —
      and a refused write is reported as an error.  The state is only
      overwritten on END, on ESC, and on the byte after an ESC. */
  function DecodeByte(d: Decoder, w: Writer, b: byte): (r: Step)
    ensures r.result == DecodeEof <==> b == END
    ensures b == END ==> r.decoder == DecoderInit()
    ensures Reserved(b) ==> r.writer == w && r.decoder.prev == b && r.result != DecodeError
    ensures !Reserved(b) ==> r.writer.replies == w.replies && r.writer.calls == w.calls + 1
    ensures !Reserved(b) ==> (r.result == DecodeOk <==> Accepts(w, 0))
    ensures !Reserved(b) && !Accepts(w, 0) ==> r.result == DecodeError && r.writer.data == w.data
    ensures !Reserved(b) && !Escaped(d) ==> r.decoder == d
    ensures !Reserved(b) && Escaped(d) ==> r.decoder.prev == b && !Escaped(r.decoder)
    ensures !Reserved(b) && !Escaped(d) && Accepts(w, 0) ==> r.writer.data == w.data + [b]
    ensures Escaped(d) && b == ESC_END && Accepts(w, 0) ==> r.writer.data == w.data + [END]
    ensures Escaped(d) && b == ESC_ESC && Accepts(w, 0) ==> r.writer.data == w.data + [ESC]
    ensures Escaped(d) && !Reserved(b) && b != ESC_END && b != ESC_ESC && Accepts(w, 0) ==>
      r.writer.data == w.data + [b]
  {
    if b == END then Step(DecodeEof, d.(prev := b), w)
    else if b == ESC then Step(DecodeOk, d.(prev := b), w)
    else
      var next := if d.prev == ESC then d.(prev := b) else d;
      var out :=
        if d.prev != ESC then b
        else if b == ESC_END then END
        else if b == ESC_ESC then ESC
        else b;
      var written := Write(w, out);
      Step(if written.result != WriterOk then DecodeError else DecodeOk, next, written.writer)
  }

  /** Decoding behaviour depends on the history byte only through whether
      it is ESC. */
  lemma OnlyEscapeMatters(d1: Decoder, d2: Decoder, w: Writer, b: byte)
    requires Escaped(d1) == Escaped(d2)
    ensures DecodeByte(d1, w, b).result == DecodeByte(d2, w, b).result
    ensures DecodeByte(d1, w, b).writer == DecodeByte(d2, w, b).writer
    ensures Escaped(DecodeByte(d1, w, b).decoder) == Escaped(DecodeByte(d2, w, b).decoder)
  {
  }

  /** What a caller sees after feeding several wire bytes in order. */
  datatype Run = Run(results: seq<DecodeResult>, decoder: Decoder, writer: Writer)

  /** Feed every byte of `wire` to `DecodeByte`, in order, collecting the
      result of each call. */
  function DecodeStream(d: Decoder, w: Writer, wire: seq<byte>): (r: Run)
    ensures |r.results| == |wire|
    decreases |wire|
  {
    if wire == [] then Run([], d, w)
    else
      var first := DecodeByte(d, w, wire[0]);
      var rest := DecodeStream(first.decoder, first.writer, wire[1..]);
      Run([first.result] + rest.results, rest.decoder, rest.writer)
  }

  /** Feeding `a + b` is feeding `a`, then `b` from the state `a` left. */
  lemma {:induction false} DecodeStreamAppend(d: Decoder, w: Writer, a: seq<byte>, b: seq<byte>)
    ensures DecodeStream(d, w, a + b) ==
      (var ra := DecodeStream(d, w, a);
       var rb := DecodeStream(ra.decoder, ra.writer, b);
       Run(ra.results + rb.results, rb.decoder, rb.writer))
    decreases |a|
  {
    if a == [] {
      assert a + b == b;
    } else {
      var first := DecodeByte(d, w, a[0]);
      DecodeStreamAppend(first.decoder, first.writer, a[1..], b);
      var ra := DecodeStream(first.decoder, first.writer, a[1..]);
      var rb := DecodeStream(ra.decoder, ra.writer, b);
      assert DecodeStream(d, w, a + b) == Run([first.result] + (ra.results + rb.results), rb.decoder, rb.writer) by {
        assert (a + b)[0] == a[0];
        assert (a + b)[1..] == a[1..] + b;
      }
      Assoc([first.result], ra.results, rb.results);
    }
  }

  /** Every collected result is `DecodeOk`. */
  predicate AllOk(rs: seq<DecodeResult>)
  {
    forall i :: 0 <= i < |rs| ==> rs[i] == DecodeOk
  }

  /** Outside an escape, the stuffed form of one byte decodes to that byte
      with a single accepted write, and leaves the decoder outside an
      escape. */
  lemma DecodeStuffOne(d: Decoder, w: Writer, b: byte)
    requires !Escaped(d) && Accepts(w, 0)
    ensures var r := DecodeStream(d, w, Stuff(b));
      && AllOk(r.results) && !Escaped(r.decoder)
      && r.writer == w.(calls := w.calls + 1, data := w.data + [b])
  {
    var wire := Stuff(b);
    if Reserved(b) {
      var s1 := DecodeByte(d, w, ESC);
      var s2 := DecodeByte(s1.decoder, s1.writer, wire[1]);
      assert wire[1..] == [wire[1]] && wire[1..][1..] == [];
      assert DecodeStream(s1.decoder, s1.writer, wire[1..]) == Run([s2.result], s2.decoder, s2.writer);
      assert DecodeStream(d, w, wire) == Run([DecodeOk, s2.result], s2.decoder, s2.writer);
    } else {
      var s1 := DecodeByte(d, w, b);
      assert wire[1..] == [];
      assert DecodeStream(d, w, wire) == Run([s1.result], s1.decoder, s1.writer);
    }
  }

  /** Concatenated all-OK result lists are all OK. */
  lemma AllOkAppend(a: seq<DecodeResult>, b: seq<DecodeResult>)
    requires AllOk(a) && AllOk(b)
    ensures AllOk(a + b)
  {
  }

  /** Outside an escape, a stuffed payload decodes to the payload: one
      accepted write per payload byte, `DecodeOk` for every wire byte, and
      the decoder again outside an escape. */
  lemma {:induction false} DecodeStuffed(d: Decoder, w: Writer, s: seq<byte>)
    requires !Escaped(d) && AcceptsNext(w, |s|)
    ensures var r := DecodeStream(d, w, StuffAll(s));
      && AllOk(r.results) && !Escaped(r.decoder)
      && r.writer == w.(calls := w.calls + |s|, data := w.data + s)
    decreases |s|
  {
    if s != [] {
      DecodeStuffOne(d, w, s[0]);
      var head := DecodeStream(d, w, Stuff(s[0]));
      AcceptsNextShift(w, head.writer, |s| - 1);
      DecodeStuffed(head.decoder, head.writer, s[1..]);
      DecodeStreamAppend(d, w, Stuff(s[0]), StuffAll(s[1..]));
      var tail := DecodeStream(head.decoder, head.writer, StuffAll(s[1..]));
      AllOkAppend(head.results, tail.results);
      ConsData(w.data, s);
    }
  }

  /** Appending the head of `s`, then its tail, appends `s`. */
  lemma ConsData(d: seq<byte>, s: seq<byte>)
    requires s != []
    ensures d + [s[0]] + s[1..] == d + s
  {
    assert [s[0]] + s[1..] == s;
  }

  /** Round trip: a fresh decoder fed the packet `EncodePacket` writes for
      `s` without a start marker writes exactly `s`, reports `DecodeEof`
      on the final byte only, and ends in its initial state. */
  lemma RoundTrip(w: Writer, s: seq<byte>)
    requires AcceptsNext(w, |s|)
    ensures var r := DecodeStream(DecoderInit(), w, Frame(s, false));
      && r.writer.data == w.data + s
      && r.writer.calls == w.calls + |s|
      && |r.results| == |Frame(s, false)|
      && AllOk(r.results[..|r.results| - 1])
      && r.results[|r.results| - 1] == DecodeEof
      && r.decoder == DecoderInit()
  {
    var body := StuffAll(s);
    assert Frame(s, false) == body + [END];
    DecodeStuffed(DecoderInit(), w, s);
    DecodeStreamAppend(DecoderInit(), w, body, [END]);
    var rb := DecodeStream(DecoderInit(), w, body);
    var r := DecodeStream(DecoderInit(), w, Frame(s, false));
    assert r.results[..|r.results| - 1] == rb.results;
  }

  /** With a start marker, the marker goes through the stuffing table, so
      the same decoder writes a data byte END in front of the payload. */
  lemma StartMarkerDecodesAsData(w: Writer, s: seq<byte>)
    requires AcceptsNext(w, |s| + 1)
    ensures DecodeStream(DecoderInit(), w, Frame(s, true)).writer.data == w.data + [END] + s
  {
    StartMarkerIsEscapedEnd(s);
    RoundTrip(w, [END] + s);
  }

  /** Two ESC bytes in a row act like one: the first is dropped without a
      trace except its own `DecodeOk`. */
  lemma DoubleEscapeDropsFirst(d: Decoder, w: Writer, rest: seq<byte>)
    ensures DecodeStream(d, w, [ESC, ESC] + rest) ==
      (var r := DecodeStream(d, w, [ESC] + rest); Run([DecodeOk] + r.results, r.decoder, r.writer))
  {
    assert ([ESC, ESC] + rest)[1..] == [ESC] + rest;
    assert ([ESC] + rest)[1..] == rest;
  }

  /** An ESC followed by END ends the packet: nothing is written, the
      results are `DecodeOk` then `DecodeEof`, and the decoder is back in
      its initial state.  RFC 1055's receiver would store the END as a
      data byte instead. */
  lemma EscapedEndEndsPacket(d: Decoder, w: Writer)
    ensures var r := DecodeStream(d, w, [ESC, END]);
      r.results == [DecodeOk, DecodeEof] && r.writer == w && r.decoder == DecoderInit()
  {
    var s1 := DecodeByte(d, w, ESC);
    var s2 := DecodeByte(s1.decoder, s1.writer, END);
    assert [ESC, END][1..] == [END] && [END][1..] == [];
    assert DecodeStream(s1.decoder, s1.writer, [END]) == Run([s2.result], s2.decoder, s2.writer);
  }

  /** From any state, an ESC followed by a byte other than END, ESC,
      ESC_END or ESC_ESC passes that byte through and keeps it as the
      history; there is no malformed-input signal. */
  lemma MalformedEscapePassesThrough(d: Decoder, w: Writer, b: byte)
    requires !Reserved(b) && b != ESC_END && b != ESC_ESC
    requires Accepts(w, 0)
    ensures var r := DecodeStream(d, w, [ESC, b]);
      r.writer.data == w.data + [b] && r.results == [DecodeOk, DecodeOk] && r.decoder.prev == b
  {
    var s1 := DecodeByte(d, w, ESC);
    var s2 := DecodeByte(s1.decoder, s1.writer, b);
    assert [ESC, b][1..] == [b] && [b][1..] == [];
    assert DecodeStream(s1.decoder, s1.writer, [b]) == Run([s2.result], s2.decoder, s2.writer);
  }
}

=== FILE: encoding.dfy ===
/** The SLIP encoder of src/slipc.c: byte stuffing, whole-buffer packet
    encoding, and the pull-based transfer that encodes whatever a reader
    delivers. */
module Encoding {
  import opened Wire
  import opened Stream

  /** The stuffing table: the wire bytes one payload byte becomes. */
  function Stuff(b: byte): (r: seq<byte>)
    ensures 1 <= |r| <= 2
    ensures END !in r
    ensures |r| == 2 <==> Reserved(b)
    ensures |r| == 1 ==> r == [b]
    ensures |r| == 2 ==> r[0] == ESC && (r[1] == ESC_END <==> b == END)
    ensures b == END ==> r == [ESC, ESC_END]
    ensures b == ESC ==> r == [ESC, ESC_ESC]
    ensures !Reserved(b) ==> r == [b]
  {
    if b == END then [ESC, ESC_END]
    else if b == ESC then [ESC, ESC_ESC]
    else [b]
  }

  /** The stuffed form of a whole payload: each byte's table entry, in order. */
  function StuffAll(s: seq<byte>): (r: seq<byte>)
    decreases |s|
  {
    if s == [] then [] else Stuff(s[0]) + StuffAll(s[1..])
  }

  /** The stuffed payload is at least as long as the payload and at most
      twice as long, and it never contains END. */
  lemma {:induction false} StuffAllShape(s: seq<byte>)
    ensures |s| <= |StuffAll(s)| <= 2 * |s|
    ensures END !in StuffAll(s)
    decreases |s|
  {
    if s != [] {
      StuffAllShape(s[1..]);
    }
  }

  /** Stuffing distributes over concatenation. */
  lemma {:induction false} StuffAllAppend(a: seq<byte>, b: seq<byte>)
    ensures StuffAll(a + b) == StuffAll(a) + StuffAll(b)
    decreases |a|
  {
    if a == [] {
      assert a + b == b;
    } else {
      StuffAllAppend(a[1..], b);
      assert (a + b)[0] == a[0] && (a + b)[1..] == a[1..] + b;
      Assoc(Stuff(a[0]), StuffAll(a[1..]), StuffAll(b));
    }
  }

  /** Stuffing a prefix one byte longer appends that byte's table entry,
      and the stuffed prefix and suffix make up the stuffed whole. */
  lemma {:induction false} StuffAllSnoc(s: seq<byte>, i: nat)
    requires i < |s|
    ensures StuffAll(s[..i + 1]) == StuffAll(s[..i]) + Stuff(s[i])
    ensures StuffAll(s) == StuffAll(s[..i + 1]) + StuffAll(s[i + 1..])
  {
    assert s[..i + 1] == s[..i] + [s[i]];
    StuffAllAppend(s[..i], [s[i]]);
    assert s == s[..i + 1] + s[i + 1..];
    StuffAllAppend(s[..i + 1], s[i + 1..]);
  }

  /** What the optional start marker puts on the wire.  The code sends it
      through the stuffing routine, so it arrives escaped. */
  function Lead(sendStart: bool): (r: seq<byte>)
    ensures sendStart ==> r == [ESC, ESC_END]
    ensures !sendStart ==> r == []
  {
    if sendStart then Stuff(END) else []
  }

  /** The complete wire image of one packet: start marker, stuffed
      payload, and a bare trailing END. */
  function Frame(s: seq<byte>, sendStart: bool): (f: seq<byte>)
  {
    Lead(sendStart) + StuffAll(s) + [END]
  }

  /** A frame ends in END and holds no other END; the delimiter is never
      ambiguous. */
  lemma FrameDelimitedOnlyAtEnd(s: seq<byte>, sendStart: bool)
    ensures var f := Frame(s, sendStart);
      |f| >= 1 && f[|f| - 1] == END &&
      forall i :: 0 <= i < |f| - 1 ==> f[i] != END
  {
    var f := Frame(s, sendStart);
    StuffAllShape(s);
    assert f[..|f| - 1] == Lead(sendStart) + StuffAll(s);
    forall i | 0 <= i < |f| - 1 ensures f[i] != END {
      assert f[i] == f[..|f| - 1][i];
    }
  }

  /** The escaped start marker makes a start-marked frame the plain frame
      of a payload with a leading END. */
  lemma StartMarkerIsEscapedEnd(s: seq<byte>)
    ensures Frame(s, true) == Frame([END] + s, false)
  {
    assert ([END] + s)[0] == END;
    assert ([END] + s)[1..] == s;
  }

  /** Packet framing examples: `[1, 2, 3]` without a start marker becomes
      `[1, 2, 3, END]`; with one, the marker is escaped. */
  lemma FramingExamples()
    ensures Frame([1, 2, 3], false) == [1, 2, 3, END]
    ensures Frame([1, 2, 3], true) == [ESC, ESC_END, 1, 2, 3, END]
  {
    assert StuffAll([1, 2, 3]) == [1, 2, 3] by {
      assert [1, 2, 3][1..] == [2, 3];
      assert [2, 3][1..] == [3];
    }
  }

  /** `slipc_encode_byte`: one payload byte as one or two write calls.  The
      second call of an escape pair is made only if the first succeeded. */
  function EncodeByte(w: Writer, b: byte): (r: Emitted)
    ensures r == WriteAll(w, Stuff(b))
    ensures r.writer.replies == w.replies
    ensures b == END ==> (r.ok <==> Accepts(w, 0) && Accepts(w, 1))
    ensures b == ESC ==> (r.ok <==> Accepts(w, 0) && Accepts(w, 1))
    ensures !Reserved(b) ==> (r.ok <==> Accepts(w, 0))
    ensures r.ok && b == END ==> r.writer.data == w.data + [ESC, ESC_END]
    ensures r.ok && b == ESC ==> r.writer.data == w.data + [ESC, ESC_ESC]
    ensures r.ok && !Reserved(b) ==> r.writer.data == w.data + [b]
    ensures !Accepts(w, 0) ==> !r.ok && r.writer.data == w.data && r.writer.calls == w.calls + 1
  {
    var lead: byte := if Reserved(b) then ESC else b;
    var stuffbyte: byte := if b == END then ESC_END else if b == ESC then ESC_ESC else 0;
    if stuffbyte != 0 then
      var first := Write(w, lead);
      if first.result != WriterOk then Emitted(false, first.writer)
      else
        var second := Write(first.writer, stuffbyte);
        assert Accepts(first.writer, 0) <==> Accepts(w, 1);
        assert Stuff(b)[1..] == [stuffbyte];
        assert WriteAll(first.writer, [stuffbyte]) == Emitted(second.result == WriterOk, second.writer);
        Emitted(second.result == WriterOk, second.writer)
    else
      var only := Write(w, lead);
      Emitted(only.result == WriterOk, only.writer)
  }

  /** The loop shared by the packet and transfer encoders: every byte of
      `buf` through `EncodeByte`, stopping at the first failure. */
  method EncodeBytes(w: Writer, buf: seq<byte>) returns (ok: bool, w': Writer)
    ensures Emitted(ok, w') == WriteAll(w, StuffAll(buf))
  {
    ok, w' := true, w;
    var i := 0;
    while i < |buf|
      invariant 0 <= i <= |buf|
      invariant WriteAll(w, StuffAll(buf[..i])) == Emitted(true, w')
    {
      var step := EncodeByte(w', buf[i]);
      StuffAllSnoc(buf, i);
      WriteAllThen(w, StuffAll(buf[..i]), Stuff(buf[i]));
      if !step.ok {
        WriteAllAbort(w, StuffAll(buf[..i + 1]), StuffAll(buf[i + 1..]));
        return false, step.writer;
      }
      w' := step.writer;
      i := i + 1;
    }
    assert buf[..i] == buf;
  }

  /** The optional start marker, sent through `EncodeByte` as both
      encoders do. */
  method SendStart(w: Writer, sendStart: bool) returns (ok: bool, w': Writer)
    ensures Emitted(ok, w') == WriteAll(w, Lead(sendStart))
    ensures !sendStart ==> ok && w' == w
  {
    if sendStart {
      var start := EncodeByte(w, END);
      ok, w' := start.ok, start.writer;
    } else {
      ok, w' := true, w;
    }
  }

  /** Reading off a call-by-call write of `bytes`: it succeeded iff every
      call was accepted, and then the writer received all of `bytes`;
      otherwise it received the bytes before the first refused call, and
      no call was made after that one. */
  lemma EmittedOutcome(w: Writer, bytes: seq<byte>, ok: bool, after: Writer)
    requires Emitted(ok, after) == WriteAll(w, bytes)
    ensures ok <==> AcceptsNext(w, |bytes|)
    ensures ok ==> after.data == w.data + bytes
    ensures !ok ==> var k := Refusal(w, |bytes|);
      after.data == w.data + bytes[..k] && after.calls == w.calls + k + 1
  {
    WriteAllOutcome(w, bytes);
    assert bytes[..|bytes|] == bytes;
  }

  /** `slipc_encode_packet`: the optional start marker, every payload byte,
      then a bare END, stopping at the first refused write.  On success
      the writer received exactly the frame; on failure it received the
      frame up to the refused call, and no call was made after it. */
  method EncodePacket(w: Writer, buf: seq<byte>, sendStart: bool) returns (ok: bool, w': Writer)
    ensures Emitted(ok, w') == WriteAll(w, Frame(buf, sendStart))
    ensures ok <==> AcceptsNext(w, |Frame(buf, sendStart)|)
    ensures ok ==> w'.data == w.data + Frame(buf, sendStart)
    ensures !ok ==> var k := Refusal(w, |Frame(buf, sendStart)|);
      w'.data == w.data + Frame(buf, sendStart)[..k] && w'.calls == w.calls + k + 1
  {
    ghost var done := Lead(sendStart);
    ok, w' := SendStart(w, sendStart);
    if ok {
      WriteAllThen(w, done, StuffAll(buf));
      ok, w' := EncodeBytes(w', buf);
    } else {
      WriteAllAbort(w, done, StuffAll(buf));
    }
    done := done + StuffAll(buf);
    assert Emitted(ok, w') == WriteAll(w, done);
    if ok {
      WriteAllThen(w, done, [END]);
      WriteAllOne(w', END);
      var end := Write(w', END);
      ok, w' := end.result == WriterOk, end.writer;
    } else {
      WriteAllAbort(w, done, [END]);
    }
    assert done + [END] == Frame(buf, sendStart);
    EmittedOutcome(w, Frame(buf, sendStart), ok, w');
  }

  /** Encoder state of slipc.h: a writer, a reader and the start-marker
      policy chosen once at initialisation. */
  datatype Encoder = Encoder(writer: Writer, reader: Reader, sendStart: bool)

  /** `slipc_encoder_init`. */
  function EncoderInit(writer: Writer, reader: Reader, sendStart: bool): (e: Encoder)
    ensures e.writer == writer && e.reader == reader && e.sendStart == sendStart
  {
    Encoder(writer, reader, sendStart)
  }

  /** Payload a transfer sees: the chunks of the leading run of OK replies,
      concatenated. */
  function Payload(rs: seq<Reply>): (p: seq<byte>)
  {
    if rs == [] || rs[0].status != ReaderOk then [] else rs[0].chunk + Payload(rs[1..])
  }

  /** The leading run of OK replies is ended by EOF, or by the script
      running out, rather than by an error. */
  predicate EndsCleanly(rs: seq<Reply>)
  {
    if rs == [] then true
    else if rs[0].status == ReaderOk then EndsCleanly(rs[1..])
    else rs[0].status == ReaderEof
  }

  /** Replies left unread once a transfer has consumed the OK run and the
      reply that ended it. */
  function Remaining(rs: seq<Reply>): (left: seq<Reply>)
  {
    if rs == [] then []
    else if rs[0].status == ReaderOk then Remaining(rs[1..])
    else rs[1..]
  }

  /** The bytes the read loop of a transfer tries to write: the stuffed
      payload, and the trailing END only when the reader ended cleanly. */
  function TransferBody(rs: seq<Reply>): (body: seq<byte>)
  {
    StuffAll(Payload(rs)) + (if EndsCleanly(rs) then [END] else [])
  }

  /** The bytes a whole transfer tries to write. */
  function TransferWire(rs: seq<Reply>, sendStart: bool): (wire: seq<byte>)
  {
    Lead(sendStart) + TransferBody(rs)
  }

  /** With a clean end, the transfer's wire image is the packet frame of
      its payload. */
  lemma TransferWireClean(rs: seq<Reply>, sendStart: bool)
    requires EndsCleanly(rs)
    ensures TransferWire(rs, sendStart) == Frame(Payload(rs), sendStart)
  {
  }

  /** Encoding one more chunk extends what the transfer has written. */
  lemma {:induction false} PumpContinue(w: Writer, done: seq<byte>, chunk: seq<byte>)
    requires WriteAll(w, StuffAll(done)).ok
    ensures WriteAll(w, StuffAll(done + chunk))
         == WriteAll(WriteAll(w, StuffAll(done)).writer, StuffAll(chunk))
  {
    StuffAllAppend(done, chunk);
    WriteAllThen(w, StuffAll(done), StuffAll(chunk));
  }

  /** A refused write inside a chunk decides the whole transfer. */
  lemma {:induction false} PumpAbort(w: Writer, done: seq<byte>, chunk: seq<byte>,
                                     more: seq<byte>, tail: seq<byte>)
    requires !WriteAll(w, StuffAll(done + chunk)).ok
    ensures WriteAll(w, StuffAll(done + (chunk + more)) + tail)
         == WriteAll(w, StuffAll(done + chunk))
  {
    assert done + (chunk + more) == (done + chunk) + more;
    StuffAllAppend(done + chunk, more);
    assert StuffAll(done + (chunk + more)) + tail
        == StuffAll(done + chunk) + (StuffAll(more) + tail);
    WriteAllAbort(w, StuffAll(done + chunk), StuffAll(more) + tail);
  }

  /** An OK reply contributes its chunk and leaves the rest of the script
      to decide the outcome. */
  lemma PayloadStep(done: seq<byte>, rs: seq<Reply>, left: seq<Reply>)
    requires left != [] && left[0].status == ReaderOk
    requires done + Payload(left) == Payload(rs)
    ensures Payload(left) == left[0].chunk + Payload(left[1..])
    ensures (done + left[0].chunk) + Payload(left[1..]) == Payload(rs)
    ensures EndsCleanly(left[1..]) == EndsCleanly(left)
    ensures Remaining(left[1..]) == Remaining(left)
  {
  }

  /** Once the reader has given a reply that is not OK, the payload seen so
      far is the whole payload, and only the trailing END may remain. */
  lemma {:induction false} PumpFinish(w: Writer, done: seq<byte>, rs: seq<Reply>, left: seq<Reply>)
    requires WriteAll(w, StuffAll(done)).ok
    requires done + Payload(left) == Payload(rs)
    requires EndsCleanly(left) == EndsCleanly(rs)
    requires left == [] || left[0].status != ReaderOk
    ensures EndsCleanly(rs) ==>
      WriteAll(w, TransferBody(rs)) == WriteAll(WriteAll(w, StuffAll(done)).writer, [END])
    ensures !EndsCleanly(rs) ==> WriteAll(w, TransferBody(rs)) == WriteAll(w, StuffAll(done))
  {
    assert Payload(left) == [];
    assert done == Payload(rs);
    if EndsCleanly(rs) {
      WriteAllThen(w, StuffAll(done), [END]);
    } else {
      assert TransferBody(rs) == StuffAll(done);
    }
  }

  /** The read loop of `slipc_encode_transfer`: encode each OK chunk, stop
      at the first reply that is not OK, writing END only for EOF. */
  method Pump(w: Writer, rd: Reader) returns (ok: bool, w': Writer, rd': Reader)
    ensures var x := WriteAll(w, TransferBody(rd.replies));
      ok == (x.ok && EndsCleanly(rd.replies)) && w' == x.writer
    ensures ok ==> rd'.replies == Remaining(rd.replies)
  {
    ghost var rs := rd.replies;
    ghost var tail := if EndsCleanly(rs) then [END] else [];
    ghost var done: seq<byte> := [];
    w', rd' := w, rd;
    while true
      invariant WriteAll(w, StuffAll(done)) == Emitted(true, w')
      invariant done + Payload(rd'.replies) == Payload(rs)
      invariant EndsCleanly(rd'.replies) == EndsCleanly(rs)
      invariant Remaining(rd'.replies) == Remaining(rs)
      decreases |rd'.replies|
    {
      var got := Read(rd');
      var reply := got.reply;
      if reply.status == ReaderOk {
        ghost var more := Payload(got.reader.replies);
        PayloadStep(done, rs, rd'.replies);
        var chunkOk, w1 := EncodeBytes(w', reply.chunk);
        PumpContinue(w, done, reply.chunk);
        if !chunkOk {
          PumpAbort(w, done, reply.chunk, more, tail);
          return false, w1, got.reader;
        }
        w' := w1;
        done := done + reply.chunk;
        rd' := got.reader;
      } else if reply.status == ReaderEof {
        PumpFinish(w, done, rs, rd'.replies);
        var end := Write(w', END);
        WriteAllOne(w', END);
        return end.result == WriterOk, end.writer, got.reader;
      } else {
        PumpFinish(w, done, rs, rd'.replies);
        return false, w', got.reader;
      }
    }
  }

  /** `slipc_encode_transfer`: the optional start marker, then the read
      loop.  Every write stops the operation at the first refusal; a reader
      error fails the transfer without a trailing END.  When the reader
      ends cleanly, the writer ends up exactly as `EncodePacket` would
      leave it for the concatenated OK chunks. */
  method EncodeTransfer(e: Encoder) returns (ok: bool, e': Encoder)
    ensures e'.sendStart == e.sendStart
    ensures var x := WriteAll(e.writer, TransferWire(e.reader.replies, e.sendStart));
      ok == (x.ok && EndsCleanly(e.reader.replies)) && e'.writer == x.writer
    ensures EndsCleanly(e.reader.replies) ==>
      Emitted(ok, e'.writer) == WriteAll(e.writer, Frame(Payload(e.reader.replies), e.sendStart))
    ensures !EndsCleanly(e.reader.replies) ==> !ok
    ensures ok ==> e'.writer.data == e.writer.data + Frame(Payload(e.reader.replies), e.sendStart)
    ensures ok ==> e'.reader.replies == Remaining(e.reader.replies)
  {
    ghost var rs := e.reader.replies;
    ghost var lead := Lead(e.sendStart);
    var w;
    ok, w := SendStart(e.writer, e.sendStart);
    var rd := e.reader;
    if ok {
      WriteAllThen(e.writer, lead, TransferBody(rs));
      ok, w, rd := Pump(w, e.reader);
    } else {
      WriteAllAbort(e.writer, lead, TransferBody(rs));
    }
    e' := e.(writer := w, reader := rd);
    TransferOutcome(e.writer, rs, e.sendStart, ok, w);
  }

  /** With a clean end, a transfer's outcome is that of the packet of its
      payload; otherwise it fails. */
  lemma TransferOutcome(w: Writer, rs: seq<Reply>, sendStart: bool, ok: bool, after: Writer)
    requires var x := WriteAll(w, TransferWire(rs, sendStart));
      ok == (x.ok && EndsCleanly(rs)) && after == x.writer
    ensures EndsCleanly(rs) ==> Emitted(ok, after) == WriteAll(w, Frame(Payload(rs), sendStart))
    ensures !EndsCleanly(rs) ==> !ok
    ensures ok ==> after.data == w.data + Frame(Payload(rs), sendStart)
  {
    if EndsCleanly(rs) {
      TransferWireClean(rs, sendStart);
      EmittedOutcome(w, Frame(Payload(rs), sendStart), ok, after);
    }
  }
}

=== FILE: stream.dfy ===
/** The byte writer and byte reader the SLIP engine talks to (the callback
    pairs of slipc.h), modelled as values: a writer is a script of replies
    for its successive one-byte calls plus the bytes it has accepted; a
    reader is the script of (status, chunk) replies it will give. */
module Stream {
  import opened Wire

  /** A writer callback together with its context.  `replies[i]` is the
      answer to the writer's i-th call overall (true = accepted); calls
      beyond the script are refused.  `calls` counts the calls made so far
      and `data` holds every byte that was accepted, in order.  A refused
      call records nothing. */
  datatype Writer = Writer(replies: seq<bool>, calls: nat, data: seq<byte>)

  /** The i-th write call from now will be accepted. */
  predicate Accepts(w: Writer, i: nat)
  {
    w.calls + i < |w.replies| && w.replies[w.calls + i]
  }

  /** The next `n` write calls will all be accepted. */
  predicate AcceptsNext(w: Writer, n: nat)
  {
    forall i :: 0 <= i < n ==> Accepts(w, i)
  }

  /** Result of one write call. */
  datatype Written = Written(result: WriterResult, writer: Writer)

  /** One call of the writer callback with a one-byte buffer. */
  function Write(w: Writer, b: byte): (r: Written)
    ensures r.writer.replies == w.replies && r.writer.calls == w.calls + 1
    ensures r.result == WriterOk <==> Accepts(w, 0)
    ensures r.writer.data == if Accepts(w, 0) then w.data + [b] else w.data
  {
    if Accepts(w, 0) then
      Written(WriterOk, w.(calls := w.calls + 1, data := w.data + [b]))
    else
      Written(WriterError, w.(calls := w.calls + 1))
  }

  /** Outcome of a sequence of writes: whether all succeeded, and the
      writer afterwards. */
  datatype Emitted = Emitted(ok: bool, writer: Writer)

  /** After one call, the scripted replies move up by one. */
  lemma AcceptsNextShift(w: Writer, w1: Writer, n: nat)
    requires w1.replies == w.replies && w1.calls == w.calls + 1
    requires AcceptsNext(w, n + 1)
    ensures AcceptsNext(w1, n)
  {
    forall i | 0 <= i < n ensures Accepts(w1, i) {
      assert Accepts(w, i + 1);
    }
  }

  /** Index of the first of the next `n` calls that would be refused, or
      `n` when all of them would be accepted. */
  function Refusal(w: Writer, n: nat): (k: nat)
    ensures k <= n
    ensures AcceptsNext(w, k)
    ensures k < n ==> !Accepts(w, k)
  {
    if n == 0 then 0
    else
      var k := Refusal(w, n - 1);
      if k < n - 1 then k
      else if Accepts(w, n - 1) then n
      else n - 1
  }

  /** The three properties of `Refusal` pin its value down. */
  lemma RefusalUnique(w: Writer, n: nat, k: nat)
    requires k <= n && AcceptsNext(w, k) && (k < n ==> !Accepts(w, k))
    ensures Refusal(w, n) == k
  {
  }

  /** Reference behaviour for emitting `bytes`: one write call per byte, in
      order, giving up at the first refused call.  Every encoder operation
      is specified against this. */
  function WriteAll(w: Writer, bytes: seq<byte>): (r: Emitted)
    decreases |bytes|
  {
    if bytes == [] then Emitted(true, w)
    else
      var first := Write(w, bytes[0]);
      if first.result != WriterOk then Emitted(false, first.writer)
      else WriteAll(first.writer, bytes[1..])
  }

  /** What `WriteAll` does, in terms of the writer's replies: it succeeds
      exactly when every call is accepted; otherwise the bytes before the
      first refused call were written, that call was made, and no call was
      made after it. */
  lemma WriteAllOutcome(w: Writer, bytes: seq<byte>)
    ensures var r := WriteAll(w, bytes);
      && r.writer.replies == w.replies
      && (r.ok <==> Refusal(w, |bytes|) == |bytes|)
      && (r.ok <==> AcceptsNext(w, |bytes|))
      && r.writer.data == w.data + bytes[..Refusal(w, |bytes|)]
      && r.writer.calls == w.calls + (if r.ok then |bytes| else Refusal(w, |bytes|) + 1)
  {
    WriteAllTrace(w, bytes);
    RefusalAll(w, |bytes|);
  }

  /** `Refusal` reaches `n` exactly when all `n` calls are accepted. */
  lemma RefusalAll(w: Writer, n: nat)
    ensures Refusal(w, n) == n <==> AcceptsNext(w, n)
  {
  }

  /** The induction behind `WriteAllOutcome`, with the outcome stated
      through `Refusal` alone. */
  lemma {:induction false} WriteAllTrace(w: Writer, bytes: seq<byte>)
    ensures var r := WriteAll(w, bytes);
      var k := Refusal(w, |bytes|);
      && r.writer.replies == w.replies
      && (r.ok <==> k == |bytes|)
      && r.writer.data == w.data + bytes[..k]
      && r.writer.calls == w.calls + (if r.ok then |bytes| else k + 1)
    decreases |bytes|
  {
    if bytes != [] {
      var first := Write(w, bytes[0]);
      if first.result != WriterOk {
        RefusalUnique(w, |bytes|, 0);
        assert w.data + bytes[..0] == w.data;
      } else {
        WriteAllTrace(first.writer, bytes[1..]);
        var k := RefusalShift(w, first.writer, |bytes|);
        TraceData(w.data, bytes, k);
      }
    }
  }

  /** Data bookkeeping for one accepted byte followed by the rest. */
  lemma TraceData(d: seq<byte>, bytes: seq<byte>, k: nat)
    requires 0 < k <= |bytes|
    ensures d + bytes[..k] == (d + [bytes[0]]) + bytes[1..][..k - 1]
  {
    assert bytes[..k] == [bytes[0]] + bytes[1..][..k - 1];
  }

  /** After one accepted call, the first refusal comes one call later. */
  lemma RefusalShift(w: Writer, w1: Writer, n: nat) returns (k: nat)
    requires n > 0 && Accepts(w, 0)
    requires w1.replies == w.replies && w1.calls == w.calls + 1
    ensures k == Refusal(w, n) == 1 + Refusal(w1, n - 1)
  {
    var k1 := Refusal(w1, n - 1);
    assert AcceptsNext(w, k1 + 1) by {
      forall i | 0 <= i < k1 + 1 ensures Accepts(w, i) {
        if i > 0 {
          assert Accepts(w1, i - 1);
        }
      }
    }
    if k1 < n - 1 {
      assert !Accepts(w1, k1);
    }
    RefusalUnique(w, n, k1 + 1);
    k := k1 + 1;
  }

  /** Writing `a + b` is writing `a`, then — only if that succeeded —
      writing `b` from where `a` left the writer. */
  lemma {:induction false} WriteAllAppend(w: Writer, a: seq<byte>, b: seq<byte>)
    ensures WriteAll(w, a + b) ==
      (var ra := WriteAll(w, a); if ra.ok then WriteAll(ra.writer, b) else ra)
    decreases |a|
  {
    if a == [] {
      assert a + b == b;
    } else {
      assert (a + b)[0] == a[0];
      assert (a + b)[1..] == a[1..] + b;
      var first := Write(w, a[0]);
      if first.result == WriterOk {
        WriteAllAppend(first.writer, a[1..], b);
      }
    }
  }

  /** After a successful prefix `p`, writing `x` continues from where `p`
      left the writer. */
  lemma {:induction false} WriteAllThen(w: Writer, p: seq<byte>, x: seq<byte>)
    requires WriteAll(w, p).ok
    ensures WriteAll(w, p + x) == WriteAll(WriteAll(w, p).writer, x)
  {
    WriteAllAppend(w, p, x);
  }

  /** After a failed prefix `p`, nothing more is written. */
  lemma {:induction false} WriteAllAbort(w: Writer, p: seq<byte>, x: seq<byte>)
    requires !WriteAll(w, p).ok
    ensures WriteAll(w, p + x) == WriteAll(w, p)
  {
    WriteAllAppend(w, p, x);
  }

  /** Writing a single byte is one call of the writer. */
  lemma WriteAllOne(w: Writer, b: byte)
    ensures WriteAll(w, [b]) == (var r := Write(w, b); Emitted(r.result == WriterOk, r.writer))
  {
    assert [b][1..] == [];
  }

  /** One reply of the reader callback: a status and the bytes it read. */
  datatype Reply = Reply(status: ReaderResult, chunk: seq<byte>)

  /** A reader callback together with its context: the replies it will give,
      in order.  Once the script is used up the reader reports end of
      stream with no bytes. */
  datatype Reader = Reader(replies: seq<Reply>)

  /** Result of one read call. */
  datatype Fetched = Fetched(reply: Reply, reader: Reader)

  /** One call of the reader callback. */
  function Read(r: Reader): (f: Fetched)
    ensures r.replies == [] ==> f.reply.status == ReaderEof && f.reply.chunk == [] && f.reader == r
    ensures r.replies != [] ==> [f.reply] + f.reader.replies == r.replies
  {
    if r.replies == [] then Fetched(Reply(ReaderEof, []), r)
    else Fetched(r.replies[0], Reader(r.replies[1..]))
  }
}

=== FILE: wire.dfy ===
/** Wire-level vocabulary of the SLIP engine (RFC 1055): the four reserved
    byte values and the result codes shared by the encoder, the decoder and
    their byte reader/writer callbacks. */
module Wire {

  /** One octet on the wire or in a payload. */
  type byte = bv8

  /** Packet delimiter. */
  const END: byte := 0xC0
  /** Escape marker that introduces a two-byte sequence. */
  const ESC: byte := 0xDB
  /** Second half of the escaped form of END. */
  const ESC_END: byte := 0xDC
  /** Second half of the escaped form of ESC. */
  const ESC_ESC: byte := 0xDD

  /** Outcome of one call to a writer callback. */
  datatype WriterResult = WriterOk | WriterError

  /** Outcome of one call to a reader callback. */
  datatype ReaderResult = ReaderEof | ReaderOk | ReaderError

  /** Outcome of feeding one wire byte to the decoder. */
  datatype DecodeResult = DecodeOk | DecodeEof | DecodeError

  /** True for the two byte values the encoder must escape. */
  predicate Reserved(b: byte)
  {
    b == END || b == ESC
  }

  /** The reserved values are pairwise distinct, and the two escape
      suffixes are nonzero, so a zero "stuff byte" can mean "no escape". */
  lemma ConstantsDistinct()
    ensures END != ESC && END != ESC_END && END != ESC_ESC
    ensures ESC != ESC_END && ESC != ESC_ESC && ESC_END != ESC_ESC
    ensures ESC_END != 0 && ESC_ESC != 0
    ensures !Reserved(ESC_END) && !Reserved(ESC_ESC)
  {
  }

  /** Concatenation regroups freely. */
  lemma Assoc<T>(x: seq<T>, y: seq<T>, z: seq<T>)
    ensures x + (y + z) == (x + y) + z
  {
  }
}
